=== FILE: README.md ===
# OIDC bearer-token middleware for echo v4, modelled in Dafny

This project models the OpenID Connect middleware of the `echo-v4-middleware/oidc`
package. The middleware authenticates an HTTP request that carries a bearer
token. It does five things:

- **Builds itself from a configuration.** Empty fields take defaults. An empty
  issuer is fatal. The discovery URI is derived from the issuer. The JWKS URI
  is read from the discovery document. The first key set is downloaded.
- **Compiles `TokenLookup` into extractors.** A string such as
  `header:Authorization,query:token` becomes an ordered list of extractors.
- **Gates on the unverified JWS header.** The token must carry exactly one
  signature and a non-empty `kid`. The `typ` is checked only when a token
  type is required.
- **Resolves the key.** Each `kid` is looked up in a cached key set. On a miss
  the whole set is downloaded once more and looked up again.
- **Checks the claims.** After signature verification it checks expiry
  (with a drift term), the exact issuer and, optionally, the audience.

Modules, one per component:

- `OidcBase` (base.dfy) holds the shared types: results, errors, time units.
- `GoStrings` (gostrings.dfy) holds Go's `strings.Split` and `strings.TrimSuffix`.
- `Discovery` (discovery.dfy) holds the discovery URI and the `jwks_uri` rule.
- `Extractors` (extractors.dfy) holds the extractors, `TokenLookup` compilation and the extractor loop.
- `TokenHeaders` (headers.dfy) holds the header gating.
- `KeyCache` (keycache.dfy) holds the key handler, a class whose `keySet` field is replaced in place.
- `ClaimChecks` (claims.dfy) holds expiry, issuer and audience.
- `Oidc` (oidc.dfy) holds defaulting, `parseToken`, the request handler and `OIDCWithConfig`.

Parts the model cannot see are oracles, passed in as function-valued
parameters:

- `parse` stands for `jws.ParseString`.
- `verify` stands for `jwt.ParseString` with a one-key key set.
- `fetchDiscovery` stands for the discovery request and its JSON decoding.
- `fetchJwks` stands for `jwk.Fetch`.

The fetch oracles take the URI and the timeout they are called with. The
models therefore show that the discovery request uses the fixed 5 s timeout
and not `JwksFetchTimeout`. The clock reading `now` is a parameter. Times and
durations are integer nanoseconds, as in Go's `time.Duration`.

The loops of the source are methods with loop invariants:

- `CompileTokenLookup` builds the extractor list by appending.
- `RunExtractors` is the extractor loop that breaks on the first success.
- `AudienceFound` sets its flag without breaking.

Each method is proved equal to a specification function: `CompileEntries`,
`Chain`, and audience membership. The properties are lemmas about those
functions. In the same way, `KeyHandler.GetByKeyID` and
`Middleware.ParseToken` are proved against `Resolve` and `Validate`.

## Where the code and its documentation differ

**Drift direction.** The comment on `AllowedTokenDrift` (oidc.go:86-89) says
the drift is added to the expiration. The code at oidc.go:286 subtracts it
(`Add(-config.AllowedTokenDrift)`). So a positive drift makes tokens expire
earlier, not later. The model follows the code (`ClaimChecks.IsExpired`) and
states the documented rule beside it (`ClaimChecks.IsExpiredAsDocumented`).
Two lemmas show the difference:

- `DriftShortensValidity`: a token whose expiration is still ahead of now, by
  less than the drift, is rejected.
- `ExpirationBoundary`: a token that expired 5 s ago is rejected with a drift
  of 10 s. The documented rule would accept it.

**Signature count message.** The error for a signature count other than one
reads "more than one signature in token". A token with zero signatures gets
the same error. The model keeps the count in `SignatureCountNotOne`.

**Empty extractor chain.** Every `TokenLookup` entry may have an unknown
source. The extractor list is then empty. No extraction error is raised and
the empty string is validated (`EmptyChainValidatesEmptyToken`).

**Entry without a colon.** An entry that is exactly a known source name
(`header`, `query`, …) has no colon. Go then indexes `parts[1]` out of range
and panics. The model returns `LookupEntryWithoutName` instead
(`CompileEntriesFailsIff`). Names are not trimmed, so the documented example
`header: Authorization` yields the header name `" Authorization"`.

**`OIDC(key)` always fails.** It ignores its argument and uses the default
configuration. That configuration has an empty issuer, so building always
fails (`OidcFromKey`).

## Model

| member | source | states |
|---|---|---|
| `GoStrings.TrimSuffix` | echo-v4-middleware/oidc/oidc.go:432 | removes the suffix exactly once when present: result plus suffix is the input; otherwise the input is unchanged |
| `GoStrings.Split` | echo-v4-middleware/oidc/oidc.go:182-185 | always at least one piece, and no piece contains the separator |
| `GoStrings.JoinSplit` | echo-v4-middleware/oidc/oidc.go:182-185 | joining the pieces of a split with the separator gives back the original string |
| `GoStrings.SplitJoin` | echo-v4-middleware/oidc/oidc.go:182-185 | splitting the join of separator-free pieces gives back exactly those pieces |
| `Discovery.DiscoveryUriFromIssuer` | echo-v4-middleware/oidc/oidc.go:431-433 | the URI ends with `/.well-known/openid-configuration`; what precedes it is the issuer, with one trailing `/` removed if there was one |
| `Discovery.DiscoveryUriTrimsOneSlash` | echo-v4-middleware/oidc/oidc.go:431-433 | `issuer` and `issuer/` give the same discovery URI; with `issuer//` only one slash is trimmed |
| `Discovery.JwksUriFromDiscoveryUri` | echo-v4-middleware/oidc/oidc.go:435-473 | succeeds iff the fetch succeeds and `jwks_uri` is non-empty, then returns that field; an empty field is `JwksUriEmpty`, a failed request `DiscoveryRequestFailed` |
| `Extractors.TokenFromHeader` | echo-v4-middleware/oidc/oidc.go:314-323 | succeeds iff the value is longer than scheme+1 and starts with the scheme; then value = scheme + one character + token, and the token is non-empty |
| `Extractors.TokenFromNonEmpty` | echo-v4-middleware/oidc/oidc.go:325-345 | query, param and form extraction fails exactly on the empty value and otherwise returns the value |
| `Extractors.TokenFromCookie` | echo-v4-middleware/oidc/oidc.go:347-356 | fails exactly when the cookie is absent; a present cookie yields its value, even when empty |
| `Extractors.Extract` | echo-v4-middleware/oidc/oidc.go:313-367 | each extractor reads its own source under its own name: a header succeeds iff present, longer than scheme+1 and prefixed by the scheme, and the token is what follows scheme and one character; query, param and form succeed iff the value is present and non-empty, and return it; a cookie succeeds iff present and returns its value; every failure is `ErrJWTMissing` |
| `Extractors.ExtractReadsOnlyItsSource` | echo-v4-middleware/oidc/oidc.go:313-367 | two requests that agree on the extractor's own source and name give the same result, whatever the other parts of the request hold |
| `Extractors.NonCookieTokensNonEmpty` | echo-v4-middleware/oidc/oidc.go:314-367 | every extractor except the cookie one yields a non-empty token |
| `Extractors.CompileEntry` | echo-v4-middleware/oidc/oidc.go:185-198 | an entry is dropped iff the text before its first `:` is not one of the five sources; it fails iff the entry is a bare source name; otherwise the extractor reads that source with the name between the first and second `:`, and a header extractor carries the auth scheme |
| `Extractors.CompileEntries` | echo-v4-middleware/oidc/oidc.go:182-199 | never yields more extractors than entries |
| `Extractors.CompileEntriesAppend` | echo-v4-middleware/oidc/oidc.go:183-199 | compilation keeps entry order: compiling a concatenation gives the two extractor lists concatenated, or the first failure |
| `Extractors.CompileEntriesFailsIff` | echo-v4-middleware/oidc/oidc.go:185-197 | compilation fails iff some entry is exactly a source name with no `:` |
| `Extractors.CompileTokenLookup` | echo-v4-middleware/oidc/oidc.go:181-199 | the append loop over the comma-separated entries returns exactly `CompileEntries` of them |
| `Extractors.SingleHeaderLookup` | echo-v4-middleware/oidc/oidc.go:115-120 | `header:<name>`, such as the default `header:Authorization`, compiles to one header extractor for that name |
| `Extractors.Chain` | echo-v4-middleware/oidc/oidc.go:210-221 | the only error the chain can report is `ErrJWTMissing` |
| `Extractors.ChainFirstSuccess` | echo-v4-middleware/oidc/oidc.go:212-219 | the first extractor that succeeds supplies the token, whatever later extractors would give |
| `Extractors.ChainAllMiss` | echo-v4-middleware/oidc/oidc.go:212-221 | when all extractors of a non-empty chain fail, the last one's error is reported |
| `Extractors.ChainNotFoundIff` | echo-v4-middleware/oidc/oidc.go:210-221 | no token is found iff the chain is non-empty and every extractor fails; so an empty chain yields `""` with no error |
| `Extractors.RunExtractors` | echo-v4-middleware/oidc/oidc.go:210-219 | the loop's `auth`/`err` equal `Chain`; on success the token comes from some extractor all of whose predecessors failed |
| `Extractors.HeaderBeforeQuery` | echo-v4-middleware/oidc/oidc.go:212-219 | with `header:Authorization,query:token`, a bearer header wins whatever the query holds |
| `TokenHeaders.HeadersFromTokenString` | echo-v4-middleware/oidc/oidc.go:503-520 | succeeds iff the token parses with exactly one signature that has a protected header, and returns that header; an unparsable token, a wrong signature count and a missing header each have their own error |
| `TokenHeaders.KeyIdFromTokenString` | echo-v4-middleware/oidc/oidc.go:475-487 | succeeds iff the header is readable and `kid` is non-empty, and returns `kid`; an empty `kid` is `MissingKeyId`, and a header error is passed on unchanged |
| `TokenHeaders.TokenTypeFromTokenString` | echo-v4-middleware/oidc/oidc.go:489-501 | succeeds iff the header is readable and `typ` is non-empty, and returns `typ`; an empty `typ` is `MissingTokenType`, and a header error is passed on unchanged |
| `TokenHeaders.HeaderGate` | echo-v4-middleware/oidc/oidc.go:257-271 | a `kid` error is returned as is; without a required type the gate is the `kid` lookup alone; an accepted token yields its non-empty `kid`, and, when a type is required, its `typ` equals it |
| `TokenHeaders.HeaderGateAccepts` | echo-v4-middleware/oidc/oidc.go:256-271 | the gate passes iff the header has a non-empty `kid` and, when a type is required, `typ` equals it; it yields that `kid` |
| `TokenHeaders.HeaderGateRejectsSignatureCount` | echo-v4-middleware/oidc/oidc.go:509-512 | a signature count other than one is rejected for that reason, whatever the header holds |
| `TokenHeaders.HeaderGateKidBeforeType` | echo-v4-middleware/oidc/oidc.go:257-271 | an empty `kid` is reported before anything about `typ` |
| `TokenHeaders.HeaderGateIgnoresTypeWhenNotRequired` | echo-v4-middleware/oidc/oidc.go:262-271 | without a required type, headers that differ only in `typ` are gated alike |
| `TokenHeaders.HeaderGateTypeChecks` | echo-v4-middleware/oidc/oidc.go:262-271 | with a required type, an empty `typ` is `MissingTokenType`, a different one is `TokenTypeMismatch`, an equal one passes |
| `KeyCache.LookupKeyId` | echo-v4-middleware/oidc/oidc.go:413 | returns the first key of the set with that `kid`, or None iff no key has it |
| `KeyCache.Resolve` | echo-v4-middleware/oidc/oidc.go:411-429 | at most one download, none on retry; without a download the cache is unchanged; after one it is the served set, or the old cache if the download failed; a returned key has the requested `kid` and is in the cache |
| `KeyCache.ResolveHit` | echo-v4-middleware/oidc/oidc.go:411-413 | a cached `kid` is served with no download and no change to the cache |
| `KeyCache.ResolveMiss` | echo-v4-middleware/oidc/oidc.go:415-426 | a first miss makes exactly one download; if it fails, the error is returned and the cache is kept; if it succeeds, the cache becomes the served set and the `kid` is looked up there only |
| `KeyCache.KeyRotation` | echo-v4-middleware/oidc/oidc_test.go:38-80 | rotation: k1 is served from cache; k2 costs one download; afterwards only k2 is cached and k1 is `KeyNotFound`; with the endpoint down, a new `kid` is an update failure and the cache is kept |
| `KeyCache.KeyHandler.constructor` | echo-v4-middleware/oidc/oidc.go:377-380 | a new handler keeps its URI and timeout and holds no keys |
| `KeyCache.KeyHandler.UpdateKeySet` | echo-v4-middleware/oidc/oidc.go:390-403 | downloads with the configured URI and timeout; success replaces the whole set, failure keeps the old set and reports `FetchFailed` |
| `KeyCache.KeyHandler.GetKeySet` | echo-v4-middleware/oidc/oidc.go:405-409 | returns the set currently cached |
| `KeyCache.KeyHandler.GetByKeyID` | echo-v4-middleware/oidc/oidc.go:411-429 | the returned key, the new cache and the download count are exactly `Resolve` of the old cache; at most one download per call |
| `KeyCache.NewKeyHandler` | echo-v4-middleware/oidc/oidc.go:376-388 | fails iff the first download fails; otherwise it returns a fresh handler holding the downloaded set |
| `ClaimChecks.Expiration` | echo-v4-middleware/oidc/oidc.go:286 | a present `exp` is the expiration; a missing one is Go's zero time, which lies before the Unix epoch |
| `ClaimChecks.IsExpired` | echo-v4-middleware/oidc/oidc.go:286 | the expiry test as written equals the documented rule (oidc.go:86-89) with the drift's sign flipped; for a non-negative drift it rejects every token the documented rule rejects |
| `ClaimChecks.DriftShortensValidity` | echo-v4-middleware/oidc/oidc.go:286 | with the drift subtracted, a token that has not yet expired but is within the drift of now is rejected, while the documented rule accepts it |
| `ClaimChecks.ExpirationBoundary` | echo-v4-middleware/oidc/oidc.go:286-290 | a token expired 5 s ago is rejected with a drift of 10 s and with one of 3 s; the documented rule would accept it with 10 s |
| `ClaimChecks.AudienceFound` | echo-v4-middleware/oidc/oidc.go:296-303 | the flag loop ends with `found` iff the required audience is in the list |
| `ClaimChecks.CheckClaims` | echo-v4-middleware/oidc/oidc.go:286-308 | accepts iff the token is not expired, the issuer is equal and the required audience, if any, is listed; expiry is reported first, then the issuer, then a missing required audience as `AudienceMismatch` |
| `ClaimChecks.MissingExpirationRejected` | echo-v4-middleware/oidc/oidc.go:286-290 | a token without `exp` expires at Go's zero time and is rejected for any realistic clock |
| `Oidc.Defaulted` | echo-v4-middleware/oidc/oidc.go:138-170 | empty issuer is fatal; a failed discovery is fatal; otherwise every defaultable field is filled (5 s, 10 s, "user", "header:Authorization", "Bearer", derived discovery URI, discovered JWKS URI with the fixed 5 s timeout), other fields (issuer, required type and audience, handlers) are kept, and an already-defaulted configuration comes back unchanged |
| `Oidc.ApplyDefaults` | echo-v4-middleware/oidc/oidc.go:139-170 | the field-by-field defaulting steps give exactly `Defaulted` |
| `Oidc.Validate` | echo-v4-middleware/oidc/oidc.go:256-310 | at most one download; a header-gate failure is returned with no download and no cache change; past the gate the cache and download count are those of `Resolve` for the token's `kid`, and a key-resolution error is returned unchanged; with a key found, a failed verification is `TokenInvalid` and otherwise the result is exactly what `CheckClaims` decides (its error, or the verified claims); an accepted token's claims come from verification with the cached key for its `kid`, are unexpired, match the issuer and hold the required audience |
| `Oidc.CachedValidTokenAccepted` | echo-v4-middleware/oidc/oidc.go:256-310 | a gated token with a cached key, a good signature and good claims is accepted with its own claims and no download |
| `Oidc.RotatedKeyAccepted` | echo-v4-middleware/oidc/oidc.go:273-276 | a token for a `kid` the endpoint now serves, but that is not cached, costs exactly one download, replaces the cache and is accepted |
| `Oidc.ExpiredTokenRejected` | echo-v4-middleware/oidc/oidc.go:286-290 | once the signature verifies with the resolved key, the token is rejected as `TokenExpired(exp)` iff its expiration minus the drift lies before now |
| `Oidc.StaleKidRejected` | echo-v4-middleware/oidc/oidc.go:273-276 | a `kid` in neither the cache nor the refreshed set is `KeyNotFound` after exactly one download, and the cache becomes the served set |
| `Oidc.RefreshFailureRejected` | echo-v4-middleware/oidc/oidc.go:273-276 | a `kid` missing from the cache with the endpoint down is rejected as a key-set update failure, and the cache is kept |
| `Oidc.MultiSignatureRejected` | echo-v4-middleware/oidc/oidc.go:257-260 | a token whose signature count is not one is rejected before key lookup, with no download and the cache untouched |
| `Oidc.OnError` | echo-v4-middleware/oidc/oidc.go:222-229 | `ErrorHandler` takes precedence over `ErrorHandlerWithContext`; a handler receives the error itself; the fallback is used iff neither is set (the same dispatch recurs at oidc.go:241-246) |
| `Oidc.Middleware.constructor` | echo-v4-middleware/oidc/oidc.go:179 | the middleware holds the defaulted configuration, the extractors and a key handler for the configured JWKS URI and timeout |
| `Oidc.Middleware.ParseToken` | echo-v4-middleware/oidc/oidc.go:256-311 | the result and the new cache are exactly `Validate` of the old cache and of what the endpoint serves |
| `Oidc.Middleware.Handle` | echo-v4-middleware/oidc/oidc.go:201-253 | with no token: `ErrorHandler`, else `ErrorHandlerWithContext`, else the 400 error, with the cache unchanged; with a token: the validated token is stored under the context key, or the error goes to the same handlers, or is returned wrapped in the 401 error |
| `Extractors.UnknownSourcesCompileToNothing` | echo-v4-middleware/oidc/oidc.go:184-199 | entries whose sources are all unknown compile, without error, to no extractor |
| `Oidc.EmptyChainValidatesEmptyToken` | echo-v4-middleware/oidc/oidc.go:182-232 | a `TokenLookup` with no known source compiles to an empty chain, which raises no error and yields the empty token string for validation |
| `Oidc.OidcWithConfig` | echo-v4-middleware/oidc/oidc.go:138-199 | a defaulting failure (no issuer, failed discovery) is returned as is; a failed first download is `KeyHandlerInitFailed(FetchFailed)`; a failed compilation is its error; it succeeds iff none of these happens, and then the middleware's configuration is exactly `Defaulted`, it holds the first downloaded key set and the compiled extractors, and is valid |
| `Oidc.OidcFromKey` | echo-v4-middleware/oidc/oidc.go:131-134 | always fails with the missing-issuer error |

## Left out

- HTTP and JSON are oracles. This covers the discovery request (oidc.go:435-466) and `jwk.Fetch` (oidc.go:393). Of the discovery logic, only "empty `jwks_uri` is an error" is modelled.
- JWS/JWT compact parsing and signature verification (jwx library) are oracles. A parsed JWS is a list of signatures, each with an optional protected header holding `kid` and `typ`.
- Whatever `jwt.ParseString` rejects is a `TokenInvalid` error.
- `KeyCache.LookupKeyId` returns the first key with a matching `kid`. This is how jwx's `Set.LookupKeyID` is assumed to behave; its source is not part of this model.
- `sync.RWMutex` is left out; the key handler is modelled sequentially. The model does not capture concurrent requests. In particular, each concurrent miss triggers its own refresh (no single-flight).
- `time.Now()` is the parameter `now`. Times and durations are unbounded integers of nanoseconds. `int64` overflow in `Add` is not modelled. `Round(0)` only strips the monotonic reading and has no effect on the value.
- `Skipper`, `BeforeFunc`, the `next` handler and `c.Set` are echo plumbing. `Outcome.Next` stands for "store the token under the context key and call next".
- The values returned by the error handlers are foreign.
- Oidc.Middleware.Handle: does not record the call to `SuccessHandler`, a foreign callback with no effect on the outcome.
- Request accessors are plain maps. `Header.Get`'s canonicalisation of header names and multi-valued headers and queries (only the first value counts) are not modelled.
- Strings are sequences of characters, while Go's `len` and slicing count bytes. For non-ASCII values, the header length test is stated in characters.
- Error texts are error variants, not formatted messages.
- KeyCache.KeyHandler.GetByKeyID: its `fetches` output counts downloads for the proofs. The Go function has no such result.
- The other packages of the repository are not part of this model: service, channels, the gin and logger middleware. They are concurrency, logging and metrics glue.

=== FILE: base.dfy ===
/** Shared vocabulary of the OIDC middleware model: optional values and
    results, the classified request errors, the configuration-time failures
    (the middleware's panics) and the time units of Go's `time` package. */
module OidcBase {

  datatype Option<+T> = None | Some(value: T)

  datatype Result<+T, +E> = Ok(value: T) | Err(error: E)

  /** Errors returned while handling one request. */
  datatype Error =
    | JwtMissing                                          // ErrJWTMissing, returned by every extractor
    | TokenUnparsable                                     // jws.ParseString rejected the token string
    | SignatureCountNotOne(count: nat)                    // "more than one signature in token"
    | HeadersNil                                          // the signature carries no protected header
    | MissingKeyId                                        // empty `kid`
    | MissingTokenType                                    // empty `typ` while a type is required
    | TokenTypeMismatch(required: string, received: string)
    | FetchFailed(jwksUri: string)                        // the key-set download failed
    | KeySetUpdateFailed(kid: string, cause: Error)       // the refresh on a cache miss failed
    | KeyNotFound(kid: string)                            // kid still unknown after the refresh
    | TokenInvalid                                        // signature verification / JWT parsing failed
    | TokenExpired(expiration: int)
    | IssuerMismatch(required: string, received: string)
    | AudienceMismatch(requiredAudience: string, audiences: seq<string>)

  /** Failures of the discovery document fetch. */
  datatype DiscoveryError =
    | DiscoveryRequestFailed   // request, transport, body or JSON failure
    | JwksUriEmpty             // the document has an empty `jwks_uri`

  /** Failures while building the middleware; the Go code panics on each. */
  datatype ConfigError =
    | MissingIssuer
    | JwksUriUnavailable(discoveryUri: string, discoveryError: DiscoveryError)
    | KeyHandlerInitFailed(cause: Error)
    | LookupEntryWithoutName(entry: string)

  /** An echo.HTTPError: status code, message and wrapped internal error. */
  datatype HttpError = HttpError(code: int, message: string, internal: Option<Error>)

  const ErrJwtMissing := HttpError(400, "missing or malformed jwt", None)
  const ErrJwtInvalid := HttpError(401, "invalid or expired jwt", None)

  /** Go's time.Duration counts nanoseconds. */
  const Second: int := 1_000_000_000

  /** The instant of Go's zero time.Time (January 1, year 1, UTC) in
      nanoseconds relative to the Unix epoch. */
  const GoZeroTime: int := -62_135_596_800 * Second
}

=== FILE: claims.dfy ===
/** Claim checks made after the signature is verified: expiry (with the
    configured drift), exact issuer, and audience membership. Times are
    nanoseconds relative to the Unix epoch. */
module ClaimChecks {
  import opened OidcBase

  /** The claims of a verified JWT that the middleware reads. A missing
      `iss` reads as "", a missing `aud` as the empty list, and a missing
      `exp` as None. */
  datatype Claims = Claims(issuer: string, audience: seq<string>, expiration: Option<int>)

  /** token.Expiration(): the `exp` claim, or Go's zero time when absent,
      which lies before the Unix epoch. */
  function Expiration(c: Claims): (e: int)
    ensures c.expiration.Some? ==> e == c.expiration.value
    ensures c.expiration.None? ==> e == GoZeroTime && e < 0
  {
    match c.expiration
    case Some(t) => t
    case None => GoZeroTime
  }

  /** The expiry rule the configuration documents: the drift is added to
      the expiration, so a positive drift tolerates clock skew. */
  predicate IsExpiredAsDocumented(expiration: int, drift: int, now: int) {
    expiration + drift < now
  }

  /** The expiry test as written: the drift is subtracted from the
      expiration before it is compared with now. It is the documented rule
      with the drift's sign flipped, so for a non-negative drift it rejects
      every token the documented rule rejects, and more. */
  predicate IsExpired(expiration: int, drift: int, now: int): (expired: bool)
    ensures expired <==> IsExpiredAsDocumented(expiration, -drift, now)
    ensures drift >= 0 && IsExpiredAsDocumented(expiration, drift, now) ==> expired
  {
    expiration - drift < now
  }

  /** A positive drift makes tokens expire earlier: a token whose expiration
      is still ahead, by less than the drift, is already rejected, while the
      documented rule accepts it. */
  lemma DriftShortensValidity(expiration: int, drift: int, now: int)
    requires drift > 0 && now <= expiration < now + drift
    ensures IsExpired(expiration, drift, now)
    ensures !IsExpiredAsDocumented(expiration, drift, now)
  {
  }

  /** A token that expired five seconds ago is rejected with a ten-second
      drift and with a three-second drift alike; adding the drift, as the
      configuration's documentation describes, would accept it with ten. */
  lemma ExpirationBoundary(now: int)
    ensures IsExpired(now - 5 * Second, 10 * Second, now)
    ensures IsExpired(now - 5 * Second, 3 * Second, now)
    ensures !IsExpiredAsDocumented(now - 5 * Second, 10 * Second, now)
  {
  }

  /** The audience loop: every element is compared and a flag is raised on
      a match; there is no early exit. */
  method AudienceFound(audiences: seq<string>, required: string) returns (found: bool)
    ensures found <==> required in audiences
  {
    found := false;
    for i := 0 to |audiences|
      invariant found <==> required in audiences[..i]
    {
      assert audiences[..i + 1] == audiences[..i] + [audiences[i]];
      if audiences[i] == required {
        found := true;
      }
    }
    assert audiences[..|audiences|] == audiences;
  }

  /** The checks in order: expiry, then issuer, then (when an audience is
      required) audience. None means the claims are accepted. */
  function CheckClaims(issuer: string, requiredAudience: string, drift: int, c: Claims, now: int): (r: Option<Error>)
    ensures r.None? <==>
      !IsExpired(Expiration(c), drift, now) && c.issuer == issuer &&
      (requiredAudience != "" ==> requiredAudience in c.audience)
    ensures IsExpired(Expiration(c), drift, now) ==> r == Some(TokenExpired(Expiration(c)))
    ensures !IsExpired(Expiration(c), drift, now) && c.issuer != issuer ==> r == Some(IssuerMismatch(issuer, c.issuer))
    ensures r.Some? && r.value.AudienceMismatch? ==> requiredAudience != "" && requiredAudience !in c.audience
    ensures (!IsExpired(Expiration(c), drift, now) && c.issuer == issuer &&
             requiredAudience != "" && requiredAudience !in c.audience) ==>
      r == Some(AudienceMismatch(requiredAudience, c.audience))
  {
    if IsExpired(Expiration(c), drift, now) then Some(TokenExpired(Expiration(c)))
    else if issuer != c.issuer then Some(IssuerMismatch(issuer, c.issuer))
    else if requiredAudience != "" && requiredAudience !in c.audience then Some(AudienceMismatch(requiredAudience, c.audience))
    else None
  }

  /** A token without `exp` is treated as expiring at Go's zero time, so it
      is rejected for any realistic clock and drift. */
  lemma MissingExpirationRejected(issuer: string, requiredAudience: string, drift: int, c: Claims, now: int)
    requires c.expiration.None? && GoZeroTime - drift < now
    ensures CheckClaims(issuer, requiredAudience, drift, c, now) == Some(TokenExpired(GoZeroTime))
  {
  }
}

=== FILE: discovery.dfy ===
/** Discovery resolver: where the issuer's discovery document lives
    (OpenID Connect Discovery 1.0, section 4) and how its `jwks_uri` field
    is taken from it. The HTTP request and the JSON decoding are one
    oracle, `fetch`, that returns the decoded `jwks_uri` field (empty when
    the document lacks it) or None when the request, the transport, reading
    the body or decoding the JSON fails. */
module Discovery {
  import opened OidcBase
  import opened GoStrings

  const WellKnownPath := "/.well-known/openid-configuration"

  /** Fetches a discovery document: (uri, timeout in ns) -> `jwks_uri` or failure. */
  type DiscoveryFetch = (string, int) -> Option<string>

  /** The issuer with at most one trailing '/' removed, then the well-known path. */
  function DiscoveryUriFromIssuer(issuer: string): (uri: string)
    ensures HasSuffix(uri, WellKnownPath)
    ensures var base := uri[..|uri| - |WellKnownPath|];
            if HasSuffix(issuer, "/") then base + "/" == issuer else base == issuer
  {
    TrimSuffix(issuer, "/") + WellKnownPath
  }

  /** Only one trailing slash is removed: an issuer written with and without
      a single trailing slash has the same discovery document, but a second
      slash is kept. */
  lemma {:induction false} DiscoveryUriTrimsOneSlash(issuer: string)
    requires !HasSuffix(issuer, "/")
    ensures DiscoveryUriFromIssuer(issuer + "/") == DiscoveryUriFromIssuer(issuer)
    ensures DiscoveryUriFromIssuer(issuer + "//") == issuer + "/" + WellKnownPath
  {
    var once := issuer + "/";
    assert HasSuffix(once, "/") && once[..|once| - 1] == issuer;
    var twice := issuer + "//";
    assert HasSuffix(twice, "/") && twice[..|twice| - 1] == issuer + "/";
  }

  /** getJwksUriFromDiscoveryUri: fails when the fetch fails or the
      document's `jwks_uri` is empty, otherwise returns that field. */
  function JwksUriFromDiscoveryUri(fetch: DiscoveryFetch, discoveryUri: string, timeout: int): (r: Result<string, DiscoveryError>)
    ensures r.Ok? <==> fetch(discoveryUri, timeout).Some? && fetch(discoveryUri, timeout).value != ""
    ensures r.Ok? ==> r.value == fetch(discoveryUri, timeout).value && r.value != ""
    ensures fetch(discoveryUri, timeout) == Some("") ==> r == Err(JwksUriEmpty)
    ensures fetch(discoveryUri, timeout).None? ==> r == Err(DiscoveryRequestFailed)
  {
    match fetch(discoveryUri, timeout)
    case None => Err(DiscoveryRequestFailed)
    case Some(jwksUri) => if jwksUri == "" then Err(JwksUriEmpty) else Ok(jwksUri)
  }
}

=== FILE: extractors.dfy ===
/** Token extractor chain: compiling a TokenLookup string such as
    "header:Authorization,query:token" into an ordered list of extractors,
    the five extractors, and the request-time loop where the first extractor
    that succeeds supplies the token. */
module Extractors {
  import opened OidcBase
  import opened GoStrings

  /** The parts of a request the extractors read. Each map gives the value
      the echo accessor returns for a name; a name that is absent reads as
      the empty string, except for cookies, whose absence is an error. */
  datatype Request = Request(
    header: map<string, string>,
    query: map<string, string>,
    param: map<string, string>,
    cookie: map<string, string>,
    form: map<string, string>)

  /** The closed set of token sources. */
  datatype Extractor =
    | FromHeader(name: string, authScheme: string)
    | FromQuery(name: string)
    | FromParam(name: string)
    | FromCookie(name: string)
    | FromForm(name: string)

  function ValueOrEmpty(m: map<string, string>, name: string): string {
    if name in m then m[name] else ""
  }

  /** jwtFromHeader: the header value must be longer than the scheme plus
      one character and start with the scheme; the scheme and the one
      character after it (not required to be a space) are dropped. */
  function TokenFromHeader(value: string, authScheme: string): (r: Result<string, Error>)
    ensures r.Ok? <==> |value| > |authScheme| + 1 && value[..|authScheme|] == authScheme
    ensures r.Ok? ==> r.value != [] && value == authScheme + [value[|authScheme|]] + r.value
    ensures r.Err? ==> r.error == JwtMissing
  {
    var l := |authScheme|;
    if |value| > l + 1 && value[..l] == authScheme then
      assert value == value[..l] + [value[l]] + value[l + 1..];
      Ok(value[l + 1..])
    else Err(JwtMissing)
  }

  /** jwtFromQuery, jwtFromParam and jwtFromForm: an empty value is a miss. */
  function TokenFromNonEmpty(value: string): (r: Result<string, Error>)
    ensures r.Ok? <==> value != ""
    ensures r.Ok? ==> r.value == value
    ensures r.Err? ==> r.error == JwtMissing
  {
    if value == "" then Err(JwtMissing) else Ok(value)
  }

  /** jwtFromCookie: only a missing cookie is a miss; a present cookie with
      an empty value yields the empty token. */
  function TokenFromCookie(cookies: map<string, string>, name: string): (r: Result<string, Error>)
    ensures r.Ok? <==> name in cookies
    ensures r.Ok? ==> r.value == cookies[name]
    ensures r.Err? ==> r.error == JwtMissing
  {
    if name in cookies then Ok(cookies[name]) else Err(JwtMissing)
  }

  /** Runs one extractor on a request: each extractor reads its own part
      of the request under its own name. */
  function Extract(e: Extractor, req: Request): (r: Result<string, Error>)
    ensures r.Err? ==> r.error == JwtMissing
    ensures e.FromHeader? ==>
      (r.Ok? <==> e.name in req.header && |req.header[e.name]| > |e.authScheme| + 1 &&
                  req.header[e.name][..|e.authScheme|] == e.authScheme)
    ensures e.FromHeader? && r.Ok? ==>
      req.header[e.name] == e.authScheme + [req.header[e.name][|e.authScheme|]] + r.value
    ensures e.FromQuery? ==>
      (r.Ok? <==> e.name in req.query && req.query[e.name] != "") && (r.Ok? ==> r.value == req.query[e.name])
    ensures e.FromParam? ==>
      (r.Ok? <==> e.name in req.param && req.param[e.name] != "") && (r.Ok? ==> r.value == req.param[e.name])
    ensures e.FromForm? ==>
      (r.Ok? <==> e.name in req.form && req.form[e.name] != "") && (r.Ok? ==> r.value == req.form[e.name])
    ensures e.FromCookie? ==>
      (r.Ok? <==> e.name in req.cookie) && (r.Ok? ==> r.value == req.cookie[e.name])
  {
    match e
    case FromHeader(name, scheme) => TokenFromHeader(ValueOrEmpty(req.header, name), scheme)
    case FromQuery(name) => TokenFromNonEmpty(ValueOrEmpty(req.query, name))
    case FromParam(name) => TokenFromNonEmpty(ValueOrEmpty(req.param, name))
    case FromCookie(name) => TokenFromCookie(req.cookie, name)
    case FromForm(name) => TokenFromNonEmpty(ValueOrEmpty(req.form, name))
  }

  /** The part of the request an extractor reads. */
  function SourceMap(e: Extractor, req: Request): map<string, string> {
    match e
    case FromHeader(_, _) => req.header
    case FromQuery(_) => req.query
    case FromParam(_) => req.param
    case FromCookie(_) => req.cookie
    case FromForm(_) => req.form
  }

  /** An extractor depends on nothing but the value its own source holds
      under its own name: two requests that agree there give the same
      result, whatever the other parts hold. */
  lemma ExtractReadsOnlyItsSource(e: Extractor, req1: Request, req2: Request)
    requires (e.name in SourceMap(e, req1)) == (e.name in SourceMap(e, req2))
    requires e.name in SourceMap(e, req1) ==> SourceMap(e, req1)[e.name] == SourceMap(e, req2)[e.name]
    ensures Extract(e, req1) == Extract(e, req2)
  {
  }

  /** Only the cookie extractor can yield an empty token. */
  lemma NonCookieTokensNonEmpty(e: Extractor, req: Request)
    requires !e.FromCookie? && Extract(e, req).Ok?
    ensures Extract(e, req).value != ""
  {
  }

  // ---------------------------------------------------------------------
  // Compiling TokenLookup

  /** What one comma-separated TokenLookup entry compiles to. */
  datatype EntryOutcome = Dropped | Compiled(extractor: Extractor) | MissingName

  predicate IsSource(s: string) {
    s == "query" || s == "param" || s == "cookie" || s == "form" || s == "header"
  }

  /** The source a compiled extractor reads from. */
  function SourceOf(x: Extractor): string {
    match x
    case FromHeader(_, _) => "header"
    case FromQuery(_) => "query"
    case FromParam(_) => "param"
    case FromCookie(_) => "cookie"
    case FromForm(_) => "form"
  }

  /** One entry: the text before the first ':' selects the source, the text
      between the first and the second ':' is the name. An unknown source
      is dropped; a known source without a ':' indexes past the pieces. */
  function CompileEntry(entry: string, authScheme: string): (o: EntryOutcome)
    ensures o.Dropped? <==> !IsSource(Split(entry, ':')[0])
    ensures o.MissingName? <==> IsSource(entry)
    ensures o.Compiled? ==>
      |Split(entry, ':')| >= 2 &&
      SourceOf(o.extractor) == Split(entry, ':')[0] &&
      o.extractor.name == Split(entry, ':')[1] &&
      (o.extractor.FromHeader? ==> o.extractor.authScheme == authScheme)
  {
    var parts := Split(entry, ':');
    assert IsSource(entry) ==> parts == [entry] by {
      if IsSource(entry) { SplitNoSeparator(entry, ':'); }
    }
    if !IsSource(parts[0]) then Dropped
    else if |parts| < 2 then
      SplitShortHasNoSeparator(entry, ':');
      MissingName
    else
      var name := parts[1];
      Compiled(match parts[0]
        case "query" => FromQuery(name)
        case "param" => FromParam(name)
        case "cookie" => FromCookie(name)
        case "form" => FromForm(name)
        case _ => FromHeader(name, authScheme))
  }

  /** The extractor list of a sequence of entries, or the entry a Go
      program would panic on. */
  function CompileEntries(entries: seq<string>, authScheme: string): (r: Result<seq<Extractor>, ConfigError>)
    ensures r.Ok? ==> |r.value| <= |entries|
  {
    if entries == [] then Ok([])
    else
      match CompileEntry(entries[0], authScheme)
      case MissingName => Err(LookupEntryWithoutName(entries[0]))
      case Dropped => CompileEntries(entries[1..], authScheme)
      case Compiled(x) =>
        match CompileEntries(entries[1..], authScheme)
        case Err(e) => Err(e)
        case Ok(xs) => Ok([x] + xs)
  }

  /** Entries whose sources are all unknown compile to no extractor. */
  lemma {:induction false} UnknownSourcesCompileToNothing(entries: seq<string>, authScheme: string)
    requires forall i :: 0 <= i < |entries| ==> !IsSource(Split(entries[i], ':')[0])
    ensures CompileEntries(entries, authScheme) == Ok([])
    decreases |entries|
  {
    if entries != [] {
      assert CompileEntry(entries[0], authScheme).Dropped?;
      UnknownSourcesCompileToNothing(entries[1..], authScheme);
    }
  }

  /** Compilation keeps the order of the entries: the extractors of a
      concatenation are those of the parts, concatenated, and the first
      entry a program would panic on is reported. */
  lemma {:induction false} CompileEntriesAppend(a: seq<string>, b: seq<string>, authScheme: string)
    ensures CompileEntries(a + b, authScheme) ==
      match CompileEntries(a, authScheme)
      case Err(e) => Err(e)
      case Ok(xa) =>
        match CompileEntries(b, authScheme)
        case Err(e) => Err(e)
        case Ok(xb) => Ok(xa + xb)
    decreases |a|
  {
    if a == [] {
      assert a + b == b;
      if CompileEntries(b, authScheme).Ok? {
        assert [] + CompileEntries(b, authScheme).value == CompileEntries(b, authScheme).value;
      }
    } else {
      assert (a + b)[0] == a[0] && (a + b)[1..] == a[1..] + b;
      CompileEntriesAppend(a[1..], b, authScheme);
      match CompileEntry(a[0], authScheme)
      case MissingName =>
      case Dropped =>
      case Compiled(x) =>
        if CompileEntries(a[1..], authScheme).Ok? && CompileEntries(b, authScheme).Ok? {
          var xa := CompileEntries(a[1..], authScheme).value;
          var xb := CompileEntries(b, authScheme).value;
          assert [x] + (xa + xb) == ([x] + xa) + xb;
        }
    }
  }

  /** Compilation fails exactly when some entry is a bare source name. */
  lemma {:induction false} CompileEntriesFailsIff(entries: seq<string>, authScheme: string)
    ensures CompileEntries(entries, authScheme).Err? <==> exists i :: 0 <= i < |entries| && IsSource(entries[i])
    decreases |entries|
  {
    if entries != [] {
      CompileEntriesFailsIff(entries[1..], authScheme);
      if IsSource(entries[0]) {
      } else {
        assert forall i :: 1 <= i < |entries| ==> entries[i] == entries[1..][i - 1];
        if exists i :: 0 <= i < |entries| && IsSource(entries[i]) {
          var i :| 0 <= i < |entries| && IsSource(entries[i]);
          assert IsSource(entries[1..][i - 1]);
        }
      }
    }
  }

  /** The TokenLookup compilation of the middleware constructor: one
      extractor per comma-separated entry with a known source, in order. */
  method CompileTokenLookup(tokenLookup: string, authScheme: string) returns (r: Result<seq<Extractor>, ConfigError>)
    ensures r == CompileEntries(Split(tokenLookup, ','), authScheme)
  {
    var sources := Split(tokenLookup, ',');
    var extractors: seq<Extractor> := [];
    assert sources[0..] == sources;
    if CompileEntries(sources, authScheme).Ok? {
      assert [] + CompileEntries(sources, authScheme).value == CompileEntries(sources, authScheme).value;
    }
    for i := 0 to |sources|
      invariant CompileEntries(sources, authScheme) ==
        match CompileEntries(sources[i..], authScheme)
        case Err(e) => Err(e)
        case Ok(rest) => Ok(extractors + rest)
    {
      assert sources[i..] == [sources[i]] + sources[i + 1..];
      CompileEntriesAppend([sources[i]], sources[i + 1..], authScheme);
      match CompileEntry(sources[i], authScheme)
      case MissingName =>
        return Err(LookupEntryWithoutName(sources[i]));
      case Dropped =>
      case Compiled(x) =>
        if CompileEntries(sources[i + 1..], authScheme).Ok? {
          var rest := CompileEntries(sources[i + 1..], authScheme).value;
          assert extractors + ([x] + rest) == (extractors + [x]) + rest;
        }
        extractors := extractors + [x];
    }
    assert sources[|sources|..] == [];
    assert extractors + [] == extractors;
    return Ok(extractors);
  }

  /** A TokenLookup of one "header:<name>" entry, such as the default
      "header:Authorization", yields one header extractor for that name. */
  lemma {:induction false} SingleHeaderLookup(name: string, authScheme: string)
    requires ':' !in name && ',' !in name
    ensures CompileEntries(Split("header:" + name, ','), authScheme) == Ok([FromHeader(name, authScheme)])
  {
    var source := "header";
    var entry := source + [':'] + name;
    assert entry == "header:" + name;
    assert ':' !in source && ',' !in source;
    SplitNoSeparator(entry, ',');
    SplitAtSeparator(source, name, ':');
    SplitNoSeparator(name, ':');
    assert Split(entry, ':') == [source, name];
    assert CompileEntry(entry, authScheme) == Compiled(FromHeader(name, authScheme));
    assert [entry][1..] == [];
    assert [FromHeader(name, authScheme)] + [] == [FromHeader(name, authScheme)];
  }

  // ---------------------------------------------------------------------
  // Running the chain

  /** What the extractor loop leaves behind: a token string to parse, or
      the error of the last extractor when every one of them missed. */
  datatype Extraction = Extracted(auth: string) | NotFound(err: Error)

  /** The extractor loop: the first success wins; when all miss the last
      error is kept; an empty chain leaves the empty token and no error. */
  function Chain(xs: seq<Extractor>, req: Request): (r: Extraction)
    ensures r.NotFound? ==> r.err == JwtMissing
  {
    if xs == [] then Extracted("")
    else match Extract(xs[0], req)
      case Ok(t) => Extracted(t)
      case Err(e) => if |xs| == 1 then NotFound(e) else Chain(xs[1..], req)
  }

  /** The first extractor that succeeds supplies the token, whatever the
      later ones would give. */
  lemma {:induction false} ChainFirstSuccess(xs: seq<Extractor>, req: Request, i: nat)
    requires i < |xs| && Extract(xs[i], req).Ok?
    requires forall j :: 0 <= j < i ==> Extract(xs[j], req).Err?
    ensures Chain(xs, req) == Extracted(Extract(xs[i], req).value)
    decreases i
  {
    if i > 0 {
      assert Extract(xs[0], req).Err?;
      assert forall j :: 0 <= j < i - 1 ==> xs[1..][j] == xs[j + 1];
      ChainFirstSuccess(xs[1..], req, i - 1);
    }
  }

  /** When every extractor of a non-empty chain misses, the chain reports
      the last extractor's error. */
  lemma {:induction false} ChainAllMiss(xs: seq<Extractor>, req: Request)
    requires xs != []
    requires forall j :: 0 <= j < |xs| ==> Extract(xs[j], req).Err?
    ensures Chain(xs, req) == NotFound(Extract(xs[|xs| - 1], req).error)
    decreases |xs|
  {
    assert Extract(xs[0], req).Err?;
    if |xs| > 1 {
      assert forall j :: 0 <= j < |xs| - 1 ==> xs[1..][j] == xs[j + 1];
      ChainAllMiss(xs[1..], req);
    }
  }

  /** A chain finds no token exactly when it is non-empty and every
      extractor misses. */
  lemma {:induction false} ChainNotFoundIff(xs: seq<Extractor>, req: Request)
    ensures Chain(xs, req).NotFound? <==> xs != [] && forall j :: 0 <= j < |xs| ==> Extract(xs[j], req).Err?
    ensures xs == [] ==> Chain(xs, req) == Extracted("")
    decreases |xs|
  {
    if xs != [] && Extract(xs[0], req).Err? && |xs| > 1 {
      ChainNotFoundIff(xs[1..], req);
      assert forall j :: 1 <= j < |xs| ==> xs[j] == xs[1..][j - 1];
    }
  }

  /** The request-time loop over the compiled extractors: `auth` and `err`
      are overwritten by each extractor, and the loop stops at the first
      success. */
  method RunExtractors(xs: seq<Extractor>, req: Request) returns (auth: string, err: Option<Error>)
    ensures err.None? ==> Chain(xs, req) == Extracted(auth)
    ensures err.Some? ==> Chain(xs, req) == NotFound(err.value) && auth == ""
    ensures err.None? && xs != [] ==>
      exists i :: 0 <= i < |xs| && Extract(xs[i], req) == Ok(auth) &&
        forall j :: 0 <= j < i ==> Extract(xs[j], req).Err?
  {
    auth, err := "", None;
    var i := 0;
    while i < |xs|
      invariant 0 <= i <= |xs|
      invariant forall j :: 0 <= j < i ==> Extract(xs[j], req).Err?
      invariant i == 0 ==> auth == "" && err.None?
      invariant i > 0 ==> auth == "" && err == Some(Extract(xs[i - 1], req).error)
    {
      var r := Extract(xs[i], req);
      if r.Ok? {
        auth, err := r.value, None;
        ChainFirstSuccess(xs, req, i);
        return;
      }
      auth, err := "", Some(r.error);
      i := i + 1;
    }
    if xs != [] {
      ChainAllMiss(xs, req);
    }
  }

  /** With "header:Authorization,query:token", a request carrying a bearer
      header is authenticated from the header whatever its query says. */
  lemma HeaderBeforeQuery(req: Request, token: string, queryToken: string)
    requires token != ""
    requires req.header == map["Authorization" := "Bearer " + token]
    requires req.query == map["token" := queryToken]
    ensures Chain([FromHeader("Authorization", "Bearer"), FromQuery("token")], req) == Extracted(token)
  {
    var v := "Bearer " + token;
    assert v[..6] == "Bearer" && v[7..] == token;
  }
}

=== FILE: gostrings.dfy ===
/** The two functions of Go's `strings` package the middleware relies on,
    restricted to what it uses: `Split` on a one-character separator and
    `TrimSuffix`. Strings are sequences of characters. */
module GoStrings {

  predicate HasSuffix(s: string, suffix: string) {
    |suffix| <= |s| && s[|s| - |suffix|..] == suffix
  }

  /** strings.TrimSuffix: removes `suffix` once if `s` ends with it. */
  function TrimSuffix(s: string, suffix: string): (r: string)
    ensures HasSuffix(s, suffix) ==> r + suffix == s
    ensures !HasSuffix(s, suffix) ==> r == s
  {
    if HasSuffix(s, suffix) then s[..|s| - |suffix|] else s
  }

  /** strings.Split with a one-character separator: the pieces between
      separators, in order; an empty string gives one empty piece. */
  function Split(s: string, sep: char): (parts: seq<string>)
    ensures |parts| >= 1
    ensures forall i :: 0 <= i < |parts| ==> sep !in parts[i]
    decreases |s|
  {
    if s == [] then [""]
    else
      var rest := Split(s[1..], sep);
      if s[0] == sep then [""] + rest
      else [[s[0]] + rest[0]] + rest[1..]
  }

  /** strings.Join, the inverse of Split. */
  function Join(parts: seq<string>, sep: char): string
    requires |parts| >= 1
  {
    if |parts| == 1 then parts[0] else parts[0] + [sep] + Join(parts[1..], sep)
  }

  /** Joining the pieces of a split gives back the original string. */
  lemma {:induction false} JoinSplit(s: string, sep: char)
    ensures Join(Split(s, sep), sep) == s
    decreases |s|
  {
    if s != [] {
      var rest := Split(s[1..], sep);
      JoinSplit(s[1..], sep);
      if s[0] == sep {
        assert Split(s, sep) == [""] + rest;
        assert ([""] + rest)[1..] == rest;
      } else {
        var parts := Split(s, sep);
        assert parts == [[s[0]] + rest[0]] + rest[1..];
        if |rest| == 1 {
          assert parts == [[s[0]] + rest[0]];
        } else {
          assert parts[1..] == rest[1..];
          assert Join(rest, sep) == rest[0] + [sep] + Join(rest[1..], sep);
        }
      }
    }
  }

  /** A piece without separator splits to itself. */
  lemma {:induction false} SplitNoSeparator(a: string, sep: char)
    requires sep !in a
    ensures Split(a, sep) == [a]
    decreases |a|
  {
    if a != [] {
      SplitNoSeparator(a[1..], sep);
      assert [a[0]] + a[1..] == a;
    }
  }

  /** Splitting at the first separator. */
  lemma {:induction false} SplitAtSeparator(a: string, b: string, sep: char)
    requires sep !in a
    ensures Split(a + [sep] + b, sep) == [a] + Split(b, sep)
    decreases |a|
  {
    var s := a + [sep] + b;
    if a == [] {
      assert s[0] == sep && s[1..] == b;
    } else {
      assert s[0] == a[0];
      assert s[1..] == a[1..] + [sep] + b;
      SplitAtSeparator(a[1..], b, sep);
      assert [a[0]] + a[1..] == a;
    }
  }

  /** Splitting the join of separator-free pieces gives back the pieces. */
  lemma {:induction false} SplitJoin(parts: seq<string>, sep: char)
    requires |parts| >= 1
    requires forall i :: 0 <= i < |parts| ==> sep !in parts[i]
    ensures Split(Join(parts, sep), sep) == parts
    decreases |parts|
  {
    if |parts| == 1 {
      SplitNoSeparator(parts[0], sep);
    } else {
      SplitJoin(parts[1..], sep);
      SplitAtSeparator(parts[0], Join(parts[1..], sep), sep);
      assert [parts[0]] + parts[1..] == parts;
    }
  }

  /** A split into fewer than two pieces found no separator: the one piece
      is the whole string. */
  lemma SplitShortHasNoSeparator(s: string, sep: char)
    requires |Split(s, sep)| < 2
    ensures Split(s, sep) == [s]
  {
    JoinSplit(s, sep);
  }
}

=== FILE: headers.dfy ===
/** Unverified header gating: the token's protected header is read before
    any signature is checked, to pick the key (`kid`) and to apply the
    optional token-type policy (`typ`). Parsing the JWS compact form is the
    jwx library's job and is an oracle here. */
module TokenHeaders {
  import opened OidcBase

  /** The two protected-header fields the middleware reads; an absent
      field reads as the empty string. */
  datatype JwsHeaders = JwsHeaders(kid: string, typ: string)

  /** One signature block with its protected header, if it has one. */
  datatype JwsSignature = JwsSignature(protectedHeaders: Option<JwsHeaders>)

  datatype JwsMessage = JwsMessage(signatures: seq<JwsSignature>)

  /** jws.ParseString: the parsed message, or None when the string is not a JWS. */
  type JwsParser = string -> Option<JwsMessage>

  /** getHeadersFromTokenString: the token must parse and carry exactly one
      signature, whose protected header is returned. */
  function HeadersFromTokenString(parse: JwsParser, token: string): (r: Result<JwsHeaders, Error>)
    ensures r.Ok? <==>
      parse(token).Some? && |parse(token).value.signatures| == 1 &&
      parse(token).value.signatures[0].protectedHeaders.Some?
    ensures r.Ok? ==> r.value == parse(token).value.signatures[0].protectedHeaders.value
    ensures parse(token).None? ==> r == Err(TokenUnparsable)
    ensures parse(token).Some? && |parse(token).value.signatures| != 1 ==>
      r == Err(SignatureCountNotOne(|parse(token).value.signatures|))
    ensures (parse(token).Some? && |parse(token).value.signatures| == 1 &&
             parse(token).value.signatures[0].protectedHeaders.None?) ==> r == Err(HeadersNil)
  {
    match parse(token)
    case None => Err(TokenUnparsable)
    case Some(msg) =>
      if |msg.signatures| != 1 then Err(SignatureCountNotOne(|msg.signatures|))
      else match msg.signatures[0].protectedHeaders
        case None => Err(HeadersNil)
        case Some(h) => Ok(h)
  }

  /** getKeyIDFromTokenString: the header's `kid`, which must be non-empty. */
  function KeyIdFromTokenString(parse: JwsParser, token: string): (r: Result<string, Error>)
    ensures r.Ok? <==> HeadersFromTokenString(parse, token).Ok? && HeadersFromTokenString(parse, token).value.kid != ""
    ensures r.Ok? ==> r.value == HeadersFromTokenString(parse, token).value.kid && r.value != ""
    ensures HeadersFromTokenString(parse, token).Ok? && r.Err? ==> r.error == MissingKeyId
    ensures HeadersFromTokenString(parse, token).Err? ==> r == Err(HeadersFromTokenString(parse, token).error)
  {
    match HeadersFromTokenString(parse, token)
    case Err(e) => Err(e)
    case Ok(h) => if h.kid == "" then Err(MissingKeyId) else Ok(h.kid)
  }

  /** getTokenTypeFromTokenString: the header's `typ`, which must be non-empty. */
  function TokenTypeFromTokenString(parse: JwsParser, token: string): (r: Result<string, Error>)
    ensures r.Ok? <==> HeadersFromTokenString(parse, token).Ok? && HeadersFromTokenString(parse, token).value.typ != ""
    ensures r.Ok? ==> r.value == HeadersFromTokenString(parse, token).value.typ && r.value != ""
    ensures HeadersFromTokenString(parse, token).Ok? && r.Err? ==> r.error == MissingTokenType
    ensures HeadersFromTokenString(parse, token).Err? ==> r == Err(HeadersFromTokenString(parse, token).error)
  {
    match HeadersFromTokenString(parse, token)
    case Err(e) => Err(e)
    case Ok(h) => if h.typ == "" then Err(MissingTokenType) else Ok(h.typ)
  }

  /** The header checks that open parseToken: the key id, then (only when a
      token type is required) the type. The result is the key id to look up. */
  function HeaderGate(requiredTokenType: string, parse: JwsParser, token: string): (r: Result<string, Error>)
    ensures KeyIdFromTokenString(parse, token).Err? ==> r == Err(KeyIdFromTokenString(parse, token).error)
    ensures requiredTokenType == "" ==> r == KeyIdFromTokenString(parse, token)
    ensures r.Ok? ==> r == KeyIdFromTokenString(parse, token) && r.value != ""
    ensures r.Ok? && requiredTokenType != "" ==> TokenTypeFromTokenString(parse, token) == Ok(requiredTokenType)
  {
    match KeyIdFromTokenString(parse, token)
    case Err(e) => Err(e)
    case Ok(kid) =>
      if requiredTokenType == "" then Ok(kid)
      else match TokenTypeFromTokenString(parse, token)
        case Err(e) => Err(e)
        case Ok(typ) =>
          if typ != requiredTokenType then Err(TokenTypeMismatch(requiredTokenType, typ)) else Ok(kid)
  }

  /** The gate lets a token through exactly when it has one signature with a
      header whose `kid` is non-empty and, when a type is required, whose
      `typ` equals it; the key id it yields is that `kid`. */
  lemma HeaderGateAccepts(requiredTokenType: string, parse: JwsParser, token: string)
    ensures HeaderGate(requiredTokenType, parse, token).Ok? <==>
      exists h :: HeadersFromTokenString(parse, token) == Ok(h) && h.kid != "" &&
        (requiredTokenType != "" ==> h.typ == requiredTokenType)
    ensures HeaderGate(requiredTokenType, parse, token).Ok? ==>
      HeaderGate(requiredTokenType, parse, token).value == HeadersFromTokenString(parse, token).value.kid
  {
    var hs := HeadersFromTokenString(parse, token);
    if hs.Ok? {
      var h := hs.value;
      if HeaderGate(requiredTokenType, parse, token).Ok? {
        assert h.kid != "" && (requiredTokenType != "" ==> h.typ == requiredTokenType);
      }
    }
  }

  /** A token whose signature count is not one is rejected for that reason,
      whatever its header says. */
  lemma HeaderGateRejectsSignatureCount(requiredTokenType: string, parse: JwsParser, token: string)
    requires parse(token).Some? && |parse(token).value.signatures| != 1
    ensures HeaderGate(requiredTokenType, parse, token) == Err(SignatureCountNotOne(|parse(token).value.signatures|))
  {
  }

  /** An empty `kid` is reported before anything about `typ`. */
  lemma HeaderGateKidBeforeType(requiredTokenType: string, parse: JwsParser, token: string)
    requires HeadersFromTokenString(parse, token).Ok? && HeadersFromTokenString(parse, token).value.kid == ""
    ensures HeaderGate(requiredTokenType, parse, token) == Err(MissingKeyId)
  {
  }

  /** Without a required type the `typ` field is never looked at: two
      headers that differ only in `typ` are gated alike. */
  lemma HeaderGateIgnoresTypeWhenNotRequired(parse1: JwsParser, parse2: JwsParser, token: string, h: JwsHeaders, typ: string)
    requires parse1(token) == Some(JwsMessage([JwsSignature(Some(h))]))
    requires parse2(token) == Some(JwsMessage([JwsSignature(Some(h.(typ := typ)))]))
    ensures HeaderGate("", parse1, token) == HeaderGate("", parse2, token)
  {
  }

  /** With a required type, an empty `typ` and a different `typ` are each
      rejected with their own error. */
  lemma HeaderGateTypeChecks(requiredTokenType: string, parse: JwsParser, token: string, h: JwsHeaders)
    requires requiredTokenType != ""
    requires HeadersFromTokenString(parse, token) == Ok(h) && h.kid != ""
    ensures h.typ == "" ==> HeaderGate(requiredTokenType, parse, token) == Err(MissingTokenType)
    ensures h.typ != "" && h.typ != requiredTokenType ==>
      HeaderGate(requiredTokenType, parse, token) == Err(TokenTypeMismatch(requiredTokenType, h.typ))
    ensures h.typ == requiredTokenType ==> HeaderGate(requiredTokenType, parse, token) == Ok(h.kid)
  {
  }
}

=== FILE: keycache.dfy ===
/** Key cache: the key handler owns one key set downloaded from the issuer's
    JWKS endpoint, replaces it wholesale when it is refreshed, and resolves
    a key id with at most one refresh. The download is an oracle, `fetch`,
    that stands for the endpoint as it is at the time of the call. */
module KeyCache {
  import opened OidcBase

  /** A JSON Web Key, identified by its `kid`; `material` stands for the
      rest of the key. */
  datatype Jwk = Jwk(kid: string, material: seq<int>)

  /** A JWKS document: keys in the order the endpoint lists them. */
  type KeySet = seq<Jwk>

  /** jwk.Fetch: (JWKS uri, timeout in ns) -> the key set, or None on failure. */
  type JwksFetch = (string, int) -> Option<KeySet>

  /** Set.LookupKeyID: the first key of the set with the given `kid`. */
  function LookupKeyId(keySet: KeySet, kid: string): (r: Option<Jwk>)
    ensures r.None? <==> forall i :: 0 <= i < |keySet| ==> keySet[i].kid != kid
    ensures r.Some? ==>
      exists i :: (0 <= i < |keySet| && keySet[i] == r.value && r.value.kid == kid &&
                   forall j :: 0 <= j < i ==> keySet[j].kid != kid)
  {
    if keySet == [] then None
    else if keySet[0].kid == kid then Some(keySet[0])
    else
      var r := LookupKeyId(keySet[1..], kid);
      assert forall i :: 1 <= i < |keySet| ==> keySet[i] == keySet[1..][i - 1];
      if r.Some? then
        var i :| 0 <= i < |keySet[1..]| && keySet[1..][i] == r.value && r.value.kid == kid &&
          forall j :: 0 <= j < i ==> keySet[1..][j].kid != kid;
        assert keySet[i + 1] == r.value;
        r
      else r
  }

  /** What one key resolution does: the key or the error, the cache
      afterwards and the number of downloads it made. */
  datatype Resolution = Resolution(key: Result<Jwk, Error>, cache: KeySet, fetches: nat)

  /** getByKeyID as a function of the cache, of what the endpoint would
      serve, and of the retry flag: a hit returns the cached key; a first
      miss downloads once and, if that succeeded, looks again with the retry
      flag set; a miss after the retry is an error. */
  function Resolve(cache: KeySet, jwksUri: string, fetched: Option<KeySet>, kid: string, retry: bool): (res: Resolution)
    ensures res.fetches <= 1
    ensures retry ==> res.fetches == 0
    ensures res.fetches == 0 ==> res.cache == cache
    ensures res.fetches == 1 ==> res.cache == if fetched.Some? then fetched.value else cache
    ensures res.key.Ok? ==> res.key.value.kid == kid && LookupKeyId(res.cache, kid) == Some(res.key.value)
    decreases if retry then 0 else 1
  {
    match LookupKeyId(cache, kid)
    case Some(key) => Resolution(Ok(key), cache, 0)
    case None =>
      if !retry then
        match fetched
        case None => Resolution(Err(KeySetUpdateFailed(kid, FetchFailed(jwksUri))), cache, 1)
        case Some(keySet) =>
          var again := Resolve(keySet, jwksUri, fetched, kid, true);
          Resolution(again.key, again.cache, 1 + again.fetches)
      else Resolution(Err(KeyNotFound(kid)), cache, 0)
  }

  /** A cached kid is served without any download. */
  lemma ResolveHit(cache: KeySet, jwksUri: string, fetched: Option<KeySet>, kid: string, retry: bool, key: Jwk)
    requires LookupKeyId(cache, kid) == Some(key)
    ensures Resolve(cache, jwksUri, fetched, kid, retry) == Resolution(Ok(key), cache, 0)
  {
  }

  /** A first miss downloads exactly once. A failed download leaves the
      cache as it was; a successful one replaces it wholesale by what the
      endpoint served, and the kid is then looked up in that set only. */
  lemma ResolveMiss(cache: KeySet, jwksUri: string, fetched: Option<KeySet>, kid: string)
    requires LookupKeyId(cache, kid).None?
    ensures Resolve(cache, jwksUri, fetched, kid, false).fetches == 1
    ensures fetched.None? ==>
      Resolve(cache, jwksUri, fetched, kid, false) ==
        Resolution(Err(KeySetUpdateFailed(kid, FetchFailed(jwksUri))), cache, 1)
    ensures fetched.Some? ==>
      Resolve(cache, jwksUri, fetched, kid, false) ==
        Resolution(
          if LookupKeyId(fetched.value, kid).Some? then Ok(LookupKeyId(fetched.value, kid).value)
          else Err(KeyNotFound(kid)),
          fetched.value, 1)
  {
  }

  /** Key rotation: a cache holding only k1 serves k1 without download; once
      the endpoint serves only k2, a token for k2 costs one download and
      then succeeds, after which the cache holds only k2 and k1 is no longer
      found even though the endpoint is asked again; with the endpoint down,
      a new kid is an update failure and the cache keeps k2. */
  lemma KeyRotation(k1: Jwk, k2: Jwk, jwksUri: string, kid3: string)
    requires k1.kid != k2.kid && kid3 != k2.kid
    ensures Resolve([k1], jwksUri, Some([k2]), k1.kid, false) == Resolution(Ok(k1), [k1], 0)
    ensures Resolve([k1], jwksUri, Some([k2]), k2.kid, false) == Resolution(Ok(k2), [k2], 1)
    ensures Resolve([k2], jwksUri, Some([k2]), k1.kid, false) == Resolution(Err(KeyNotFound(k1.kid)), [k2], 1)
    ensures Resolve([k2], jwksUri, None, kid3, false) ==
      Resolution(Err(KeySetUpdateFailed(kid3, FetchFailed(jwksUri))), [k2], 1)
  {
    assert LookupKeyId([k1], k1.kid) == Some(k1);
    assert LookupKeyId([k1], k2.kid).None?;
    assert LookupKeyId([k2], k2.kid) == Some(k2);
    assert LookupKeyId([k2], k1.kid).None?;
    assert LookupKeyId([k2], kid3).None?;
  }

  /** The key handler: the JWKS endpoint, its download timeout, and the
      cached key set, which only UpdateKeySet replaces. */
  class KeyHandler {
    const jwksUri: string
    const fetchTimeout: int
    var keySet: KeySet

    /** The handler before its first download holds no keys. */
    constructor (jwksUri: string, fetchTimeout: int)
      ensures this.jwksUri == jwksUri && this.fetchTimeout == fetchTimeout && keySet == []
    {
      this.jwksUri := jwksUri;
      this.fetchTimeout := fetchTimeout;
      keySet := [];
    }

    /** updateKeySet: download with the configured timeout; on success the
        cached set is replaced by the downloaded one, on failure it is kept. */
    method UpdateKeySet(fetch: JwksFetch) returns (err: Option<Error>)
      modifies this`keySet
      ensures fetch(jwksUri, fetchTimeout).None? ==> err == Some(FetchFailed(jwksUri)) && keySet == old(keySet)
      ensures fetch(jwksUri, fetchTimeout).Some? ==> err.None? && keySet == fetch(jwksUri, fetchTimeout).value
    {
      var downloaded := fetch(jwksUri, fetchTimeout);
      if downloaded.None? {
        return Some(FetchFailed(jwksUri));
      }
      keySet := downloaded.value;
      return None;
    }

    /** getKeySet: the cached set as it is now. */
    method GetKeySet() returns (s: KeySet)
      ensures s == keySet
    {
      s := keySet;
    }

    /** getByKeyID: looks the kid up in the cached set; on a first miss
        refreshes once and calls itself with the retry flag set. `fetches`
        counts the downloads the call made. */
    method GetByKeyID(kid: string, retry: bool, fetch: JwksFetch) returns (key: Result<Jwk, Error>, fetches: nat)
      modifies this`keySet
      ensures Resolution(key, keySet, fetches) == Resolve(old(keySet), jwksUri, fetch(jwksUri, fetchTimeout), kid, retry)
      ensures fetches <= 1
      decreases if retry then 0 else 1
    {
      var cached := GetKeySet();
      var found := LookupKeyId(cached, kid);
      if found.None? && !retry {
        var err := UpdateKeySet(fetch);
        if err.Some? {
          return Err(KeySetUpdateFailed(kid, err.value)), 1;
        }
        var again, n := GetByKeyID(kid, true, fetch);
        return again, 1 + n;
      }
      if found.None? && retry {
        return Err(KeyNotFound(kid)), 0;
      }
      return Ok(found.value), 0;
    }
  }

  /** newKeyHandler: a handler whose first download must succeed. */
  method NewKeyHandler(jwksUri: string, fetchTimeout: int, fetch: JwksFetch) returns (r: Result<KeyHandler, Error>)
    ensures fetch(jwksUri, fetchTimeout).None? ==> r == Err(FetchFailed(jwksUri))
    ensures fetch(jwksUri, fetchTimeout).Some? ==>
      r.Ok? && fresh(r.value) &&
      r.value.jwksUri == jwksUri && r.value.fetchTimeout == fetchTimeout &&
      r.value.keySet == fetch(jwksUri, fetchTimeout).value
  {
    var h := new KeyHandler(jwksUri, fetchTimeout);
    var err := h.UpdateKeySet(fetch);
    if err.Some? {
      return Err(err.value);
    }
    return Ok(h);
  }
}

=== FILE: oidc.dfy ===
/** The OIDC bearer-token middleware: configuration defaulting, building
    the middleware (discovery, first key download, TokenLookup
    compilation), token validation (parseToken) and the request handler
    with its error-handler dispatch. */
module Oidc {
  import opened OidcBase
  import opened GoStrings
  import opened Discovery
  import opened Extractors
  import opened TokenHeaders
  import opened KeyCache
  import opened ClaimChecks

  /** The configuration fields that take part in the logic. The two
      error handlers are foreign callbacks: only whether each is set
      matters here. Durations are in nanoseconds. */
  datatype Config = Config(
    hasErrorHandler: bool,
    hasErrorHandlerWithContext: bool,
    contextKey: string,
    tokenLookup: string,
    authScheme: string,
    issuer: string,
    discoveryUri: string,
    jwksUri: string,
    requiredTokenType: string,
    requiredAudience: string,
    jwksFetchTimeout: int,
    allowedTokenDrift: int)

  /** DefaultOIDCConfig: no issuer, default context key, lookup and scheme. */
  const DefaultConfig := Config(false, false, "user", "header:Authorization", "Bearer", "", "", "", "", "", 0, 0)

  const DefaultJwksFetchTimeout := 5 * Second
  const DefaultAllowedTokenDrift := 10 * Second
  /** The discovery download has its own fixed timeout, not JwksFetchTimeout. */
  const DiscoveryFetchTimeout := 5 * Second

  /** jwt.ParseString with a key set holding one key: the verified claims,
      or None when the token does not parse or its signature does not verify. */
  type JwtVerifier = (string, Jwk) -> Option<Claims>

  /** Every field that has a default holds a non-empty or non-zero value. */
  predicate IsDefaulted(c: Config) {
    c.issuer != "" && c.discoveryUri != "" && c.jwksUri != "" &&
    c.jwksFetchTimeout != 0 && c.allowedTokenDrift != 0 &&
    c.contextKey != "" && c.tokenLookup != "" && c.authScheme != ""
  }

  function OrDefault<T(==)>(value: T, zero: T, default: T): T {
    if value == zero then default else value
  }

  /** The discovery URI the configuration ends up with. */
  function DiscoveryUriOf(config: Config): string {
    OrDefault(config.discoveryUri, "", DiscoveryUriFromIssuer(config.issuer))
  }

  /** The defaulting that opens OIDCWithConfig: an empty issuer is fatal;
      an empty discovery URI is derived from the issuer; an empty JWKS URI
      is read from the discovery document (with the fixed 5 s timeout), and
      failing that is fatal; zero durations and empty strings take their
      defaults; everything else is kept. */
  function Defaulted(config: Config, fetchDiscovery: DiscoveryFetch): (r: Result<Config, ConfigError>)
    ensures config.issuer == "" ==> r == Err(MissingIssuer)
    ensures var discovered := JwksUriFromDiscoveryUri(fetchDiscovery, DiscoveryUriOf(config), DiscoveryFetchTimeout);
      (config.issuer != "" && config.jwksUri == "" && discovered.Err?) ==>
        r == Err(JwksUriUnavailable(DiscoveryUriOf(config), discovered.error))
    ensures r.Err? <==>
      (config.issuer == "" ||
       (config.jwksUri == "" && JwksUriFromDiscoveryUri(fetchDiscovery, DiscoveryUriOf(config), DiscoveryFetchTimeout).Err?))
    ensures r.Ok? ==> IsDefaulted(r.value)
    ensures r.Ok? ==> r.value.discoveryUri == DiscoveryUriOf(config)
    ensures r.Ok? && config.jwksUri != "" ==> r.value.jwksUri == config.jwksUri
    ensures r.Ok? && config.jwksUri == "" ==>
      Ok(r.value.jwksUri) == JwksUriFromDiscoveryUri(fetchDiscovery, DiscoveryUriOf(config), DiscoveryFetchTimeout)
    ensures r.Ok? ==> r.value.jwksFetchTimeout == OrDefault(config.jwksFetchTimeout, 0, DefaultJwksFetchTimeout)
    ensures r.Ok? ==> r.value.allowedTokenDrift == OrDefault(config.allowedTokenDrift, 0, DefaultAllowedTokenDrift)
    ensures r.Ok? ==> r.value.contextKey == OrDefault(config.contextKey, "", DefaultConfig.contextKey)
    ensures r.Ok? ==> r.value.tokenLookup == OrDefault(config.tokenLookup, "", DefaultConfig.tokenLookup)
    ensures r.Ok? ==> r.value.authScheme == OrDefault(config.authScheme, "", DefaultConfig.authScheme)
    ensures r.Ok? ==>
      r.value.issuer == config.issuer &&
      r.value.hasErrorHandler == config.hasErrorHandler &&
      r.value.hasErrorHandlerWithContext == config.hasErrorHandlerWithContext &&
      r.value.requiredTokenType == config.requiredTokenType &&
      r.value.requiredAudience == config.requiredAudience
    ensures IsDefaulted(config) ==> r == Ok(config)
  {
    if config.issuer == "" then Err(MissingIssuer)
    else
      var discoveryUri := DiscoveryUriOf(config);
      var jwksUri := if config.jwksUri != "" then Ok(config.jwksUri)
                     else JwksUriFromDiscoveryUri(fetchDiscovery, discoveryUri, DiscoveryFetchTimeout);
      match jwksUri
      case Err(e) => Err(JwksUriUnavailable(discoveryUri, e))
      case Ok(uri) =>
        Ok(config.(
          discoveryUri := discoveryUri,
          jwksUri := uri,
          jwksFetchTimeout := OrDefault(config.jwksFetchTimeout, 0, DefaultJwksFetchTimeout),
          allowedTokenDrift := OrDefault(config.allowedTokenDrift, 0, DefaultAllowedTokenDrift),
          contextKey := OrDefault(config.contextKey, "", DefaultConfig.contextKey),
          tokenLookup := OrDefault(config.tokenLookup, "", DefaultConfig.tokenLookup),
          authScheme := OrDefault(config.authScheme, "", DefaultConfig.authScheme)))
  }

  /** The defaulting steps of OIDCWithConfig, one field at a time. */
  method ApplyDefaults(config: Config, fetchDiscovery: DiscoveryFetch) returns (r: Result<Config, ConfigError>)
    ensures r == Defaulted(config, fetchDiscovery)
  {
    var c := config;
    if c.issuer == "" {
      return Err(MissingIssuer);
    }
    if c.discoveryUri == "" {
      c := c.(discoveryUri := DiscoveryUriFromIssuer(c.issuer));
    }
    if c.jwksUri == "" {
      var jwksUri := JwksUriFromDiscoveryUri(fetchDiscovery, c.discoveryUri, DiscoveryFetchTimeout);
      if jwksUri.Err? {
        return Err(JwksUriUnavailable(c.discoveryUri, jwksUri.error));
      }
      c := c.(jwksUri := jwksUri.value);
    }
    c := c.(jwksFetchTimeout := OrDefault(c.jwksFetchTimeout, 0, DefaultJwksFetchTimeout));
    c := c.(allowedTokenDrift := OrDefault(c.allowedTokenDrift, 0, DefaultAllowedTokenDrift));
    c := c.(contextKey := OrDefault(c.contextKey, "", DefaultConfig.contextKey));
    c := c.(tokenLookup := OrDefault(c.tokenLookup, "", DefaultConfig.tokenLookup));
    c := c.(authScheme := OrDefault(c.authScheme, "", DefaultConfig.authScheme));
    return Ok(c);
  }

  // ---------------------------------------------------------------------
  // Token validation

  /** The outcome of validating one token string: the claims or the error,
      the key cache afterwards, and the number of key downloads made. */
  datatype Validation = Validation(result: Result<Claims, Error>, cache: KeySet, fetches: nat)

  /** parseToken as a function of the cached key set and of what the JWKS
      endpoint would serve: header gate, key resolution, verification with
      the resolved key alone, then the claim checks. */
  function Validate(config: Config, cache: KeySet, fetched: Option<KeySet>, parse: JwsParser, verify: JwtVerifier, auth: string, now: int): (v: Validation)
    ensures v.fetches <= 1
    ensures v.fetches == 0 ==> v.cache == cache
    ensures HeaderGate(config.requiredTokenType, parse, auth).Err? ==>
      v == Validation(Err(HeaderGate(config.requiredTokenType, parse, auth).error), cache, 0)
    ensures HeaderGate(config.requiredTokenType, parse, auth).Ok? ==>
      var res := Resolve(cache, config.jwksUri, fetched, HeaderGate(config.requiredTokenType, parse, auth).value, false);
      v.cache == res.cache && v.fetches == res.fetches &&
      (res.key.Err? ==> v.result == Err(res.key.error))
    ensures var g := HeaderGate(config.requiredTokenType, parse, auth);
      (g.Ok? && Resolve(cache, config.jwksUri, fetched, g.value, false).key.Ok?) ==>
        var key := Resolve(cache, config.jwksUri, fetched, g.value, false).key.value;
        (verify(auth, key).None? ==> v.result == Err(TokenInvalid)) &&
        (verify(auth, key).Some? ==>
          var checked := CheckClaims(config.issuer, config.requiredAudience, config.allowedTokenDrift, verify(auth, key).value, now);
          v.result == if checked.Some? then Err(checked.value) else Ok(verify(auth, key).value))
    ensures v.result.Ok? ==>
      HeaderGate(config.requiredTokenType, parse, auth).Ok? &&
      LookupKeyId(v.cache, HeaderGate(config.requiredTokenType, parse, auth).value).Some? &&
      verify(auth, LookupKeyId(v.cache, HeaderGate(config.requiredTokenType, parse, auth).value).value) == Some(v.result.value) &&
      !IsExpired(Expiration(v.result.value), config.allowedTokenDrift, now) &&
      v.result.value.issuer == config.issuer &&
      (config.requiredAudience != "" ==> config.requiredAudience in v.result.value.audience)
  {
    match HeaderGate(config.requiredTokenType, parse, auth)
    case Err(e) => Validation(Err(e), cache, 0)
    case Ok(kid) =>
      var res := Resolve(cache, config.jwksUri, fetched, kid, false);
      match res.key
      case Err(e) => Validation(Err(e), res.cache, res.fetches)
      case Ok(key) =>
        match verify(auth, key)
        case None => Validation(Err(TokenInvalid), res.cache, res.fetches)
        case Some(c) =>
          match CheckClaims(config.issuer, config.requiredAudience, config.allowedTokenDrift, c, now)
          case Some(e) => Validation(Err(e), res.cache, res.fetches)
          case None => Validation(Ok(c), res.cache, res.fetches)
  }

  /** A token that passes the header gate, is signed by a key already in
      the cache and has acceptable claims is accepted with its own claims,
      without any download. */
  lemma {:induction false} CachedValidTokenAccepted(config: Config, cache: KeySet, fetched: Option<KeySet>, parse: JwsParser, verify: JwtVerifier, auth: string, now: int, kid: string, key: Jwk, c: Claims)
    requires HeaderGate(config.requiredTokenType, parse, auth) == Ok(kid)
    requires LookupKeyId(cache, kid) == Some(key)
    requires verify(auth, key) == Some(c)
    requires !IsExpired(Expiration(c), config.allowedTokenDrift, now) && c.issuer == config.issuer
    requires config.requiredAudience != "" ==> config.requiredAudience in c.audience
    ensures Validate(config, cache, fetched, parse, verify, auth, now) == Validation(Ok(c), cache, 0)
  {
    ResolveHit(cache, config.jwksUri, fetched, kid, false, key);
  }

  /** A token with a rotated key: its kid is not cached, the endpoint now
      serves it, so exactly one download happens, the cache becomes the
      served set and the token is accepted. */
  lemma {:induction false} RotatedKeyAccepted(config: Config, cache: KeySet, served: KeySet, parse: JwsParser, verify: JwtVerifier, auth: string, now: int, kid: string, key: Jwk, c: Claims)
    requires HeaderGate(config.requiredTokenType, parse, auth) == Ok(kid)
    requires LookupKeyId(cache, kid).None? && LookupKeyId(served, kid) == Some(key)
    requires verify(auth, key) == Some(c)
    requires CheckClaims(config.issuer, config.requiredAudience, config.allowedTokenDrift, c, now).None?
    ensures Validate(config, cache, Some(served), parse, verify, auth, now) == Validation(Ok(c), served, 1)
  {
    ResolveMiss(cache, config.jwksUri, Some(served), kid);
  }

  /** Once a token's signature verifies with the resolved key, it is
      rejected as expired exactly when its expiration minus the drift lies
      before now, and the error carries that expiration. */
  lemma {:induction false} ExpiredTokenRejected(config: Config, cache: KeySet, fetched: Option<KeySet>, parse: JwsParser, verify: JwtVerifier, auth: string, now: int, kid: string, key: Jwk, c: Claims)
    requires HeaderGate(config.requiredTokenType, parse, auth) == Ok(kid)
    requires Resolve(cache, config.jwksUri, fetched, kid, false).key == Ok(key)
    requires verify(auth, key) == Some(c)
    ensures Validate(config, cache, fetched, parse, verify, auth, now).result == Err(TokenExpired(Expiration(c))) <==>
      IsExpired(Expiration(c), config.allowedTokenDrift, now)
  {
    var checked := CheckClaims(config.issuer, config.requiredAudience, config.allowedTokenDrift, c, now);
    assert Validate(config, cache, fetched, parse, verify, auth, now).result ==
      if checked.Some? then Err(checked.value) else Ok(c);
  }

  /** A token whose kid is neither cached nor served after the refresh is
      rejected with KeyNotFound; the one download still replaces the cache
      by what the endpoint served. */
  lemma {:induction false} StaleKidRejected(config: Config, cache: KeySet, served: KeySet, parse: JwsParser, verify: JwtVerifier, auth: string, now: int, kid: string)
    requires HeaderGate(config.requiredTokenType, parse, auth) == Ok(kid)
    requires LookupKeyId(cache, kid).None? && LookupKeyId(served, kid).None?
    ensures Validate(config, cache, Some(served), parse, verify, auth, now) == Validation(Err(KeyNotFound(kid)), served, 1)
  {
    ResolveMiss(cache, config.jwksUri, Some(served), kid);
  }

  /** When the refresh itself fails, the token is rejected with the update
      failure and the cache is kept. */
  lemma {:induction false} RefreshFailureRejected(config: Config, cache: KeySet, parse: JwsParser, verify: JwtVerifier, auth: string, now: int, kid: string)
    requires HeaderGate(config.requiredTokenType, parse, auth) == Ok(kid)
    requires LookupKeyId(cache, kid).None?
    ensures Validate(config, cache, None, parse, verify, auth, now) ==
      Validation(Err(KeySetUpdateFailed(kid, FetchFailed(config.jwksUri))), cache, 1)
  {
    ResolveMiss(cache, config.jwksUri, None, kid);
  }

  /** A token whose signature count is not one is rejected before any key
      lookup: no download happens and the cache is untouched. */
  lemma {:induction false} MultiSignatureRejected(config: Config, cache: KeySet, fetched: Option<KeySet>, parse: JwsParser, verify: JwtVerifier, auth: string, now: int)
    requires parse(auth).Some? && |parse(auth).value.signatures| != 1
    ensures Validate(config, cache, fetched, parse, verify, auth, now) ==
      Validation(Err(SignatureCountNotOne(|parse(auth).value.signatures|)), cache, 0)
  {
    HeaderGateRejectsSignatureCount(config.requiredTokenType, parse, auth);
  }

  // ---------------------------------------------------------------------
  // The middleware

  /** What handling one request leads to: the next handler with the token
      stored under the context key, one of the two error handlers, or an
      error returned to echo. */
  datatype Outcome =
    | Next(contextKey: string, token: Claims)
    | ToErrorHandler(err: Error)
    | ToErrorHandlerWithContext(err: Error)
    | Returned(httpError: HttpError)

  /** ErrorHandler if set, else ErrorHandlerWithContext if set, else the
      fallback. A handler always receives the error itself. */
  function OnError(config: Config, err: Error, fallback: Outcome): (o: Outcome)
    ensures config.hasErrorHandler ==> o == ToErrorHandler(err)
    ensures config.hasErrorHandlerWithContext && !config.hasErrorHandler ==> o == ToErrorHandlerWithContext(err)
    ensures !config.hasErrorHandler && !config.hasErrorHandlerWithContext ==> o == fallback
    ensures (config.hasErrorHandler || config.hasErrorHandlerWithContext) ==>
      (o.ToErrorHandler? || o.ToErrorHandlerWithContext?) && o.err == err
  {
    if config.hasErrorHandler then ToErrorHandler(err)
    else if config.hasErrorHandlerWithContext then ToErrorHandlerWithContext(err)
    else fallback
  }

  /** The middleware built by OIDCWithConfig: the defaulted configuration,
      the compiled extractors and the key handler. */
  class Middleware {
    const config: Config
    const extractors: seq<Extractor>
    const keyHandler: KeyHandler

    ghost predicate Valid() {
      IsDefaulted(config) &&
      keyHandler.jwksUri == config.jwksUri && keyHandler.fetchTimeout == config.jwksFetchTimeout
    }

    constructor (config: Config, extractors: seq<Extractor>, keyHandler: KeyHandler)
      requires IsDefaulted(config)
      requires keyHandler.jwksUri == config.jwksUri && keyHandler.fetchTimeout == config.jwksFetchTimeout
      ensures Valid()
      ensures this.config == config && this.extractors == extractors && this.keyHandler == keyHandler
    {
      this.config := config;
      this.extractors := extractors;
      this.keyHandler := keyHandler;
    }

    /** parseToken: the header gate, the key lookup (with at most one
        refresh of the cache), verification, expiry, issuer and audience. */
    method ParseToken(auth: string, parse: JwsParser, verify: JwtVerifier, fetch: JwksFetch, now: int) returns (r: Result<Claims, Error>)
      requires Valid()
      modifies keyHandler`keySet
      ensures var v := Validate(config, old(keyHandler.keySet), fetch(config.jwksUri, config.jwksFetchTimeout), parse, verify, auth, now);
              r == v.result && keyHandler.keySet == v.cache
    {
      var keyId := KeyIdFromTokenString(parse, auth);
      if keyId.Err? {
        return Err(keyId.error);
      }
      if config.requiredTokenType != "" {
        var tokenType := TokenTypeFromTokenString(parse, auth);
        if tokenType.Err? {
          return Err(tokenType.error);
        }
        if tokenType.value != config.requiredTokenType {
          return Err(TokenTypeMismatch(config.requiredTokenType, tokenType.value));
        }
      }
      var key, _ := keyHandler.GetByKeyID(keyId.value, false, fetch);
      if key.Err? {
        return Err(key.error);
      }
      var token := verify(auth, key.value);
      if token.None? {
        return Err(TokenInvalid);
      }
      var claims := token.value;
      if IsExpired(Expiration(claims), config.allowedTokenDrift, now) {
        return Err(TokenExpired(Expiration(claims)));
      }
      if config.issuer != claims.issuer {
        return Err(IssuerMismatch(config.issuer, claims.issuer));
      }
      if config.requiredAudience != "" {
        var found := AudienceFound(claims.audience, config.requiredAudience);
        if !found {
          return Err(AudienceMismatch(config.requiredAudience, claims.audience));
        }
      }
      return Ok(claims);
    }

    /** The request handler: run the extractors; when none finds a token,
        hand the error to the error handlers or return it (400); otherwise
        validate the token, pass it on under the context key, or hand the
        error to the error handlers or return it wrapped in a 401. */
    method Handle(req: Request, parse: JwsParser, verify: JwtVerifier, fetch: JwksFetch, now: int) returns (o: Outcome)
      requires Valid()
      modifies keyHandler`keySet
      ensures match Chain(extractors, req)
        case NotFound(e) =>
          o == OnError(config, e, Returned(ErrJwtMissing)) && keyHandler.keySet == old(keyHandler.keySet)
        case Extracted(auth) =>
          var v := Validate(config, old(keyHandler.keySet), fetch(config.jwksUri, config.jwksFetchTimeout), parse, verify, auth, now);
          keyHandler.keySet == v.cache &&
          o == if v.result.Ok? then Next(config.contextKey, v.result.value)
               else OnError(config, v.result.error, Returned(ErrJwtInvalid.(internal := Some(v.result.error))))
    {
      var auth, err := RunExtractors(extractors, req);
      if err.Some? {
        if config.hasErrorHandler {
          return ToErrorHandler(err.value);
        }
        if config.hasErrorHandlerWithContext {
          return ToErrorHandlerWithContext(err.value);
        }
        return Returned(ErrJwtMissing);
      }
      var token := ParseToken(auth, parse, verify, fetch, now);
      if token.Ok? {
        return Next(config.contextKey, token.value);
      }
      if config.hasErrorHandler {
        return ToErrorHandler(token.error);
      }
      if config.hasErrorHandlerWithContext {
        return ToErrorHandlerWithContext(token.error);
      }
      return Returned(HttpError(ErrJwtInvalid.code, ErrJwtInvalid.message, Some(token.error)));
    }
  }

  /** A TokenLookup none of whose entries names a known source compiles
      without error to an empty extractor chain, and that chain raises no
      extraction error: the empty string is what gets validated. */
  lemma {:induction false} EmptyChainValidatesEmptyToken(tokenLookup: string, authScheme: string, req: Request)
    requires forall e :: e in Split(tokenLookup, ',') ==> !IsSource(Split(e, ':')[0])
    ensures CompileEntries(Split(tokenLookup, ','), authScheme) == Ok([])
    ensures Chain(CompileEntries(Split(tokenLookup, ','), authScheme).value, req) == Extracted("")
  {
    var entries := Split(tokenLookup, ',');
    assert forall i :: 0 <= i < |entries| ==> entries[i] in entries;
    UnknownSourcesCompileToNothing(entries, authScheme);
  }

  /** OIDCWithConfig: defaulting, the first key download, then TokenLookup
      compilation; each failure is a configuration error. */
  method OidcWithConfig(config: Config, fetchDiscovery: DiscoveryFetch, fetchJwks: JwksFetch) returns (r: Result<Middleware, ConfigError>)
    ensures config.issuer == "" ==> r == Err(MissingIssuer)
    ensures Defaulted(config, fetchDiscovery).Err? ==> r == Err(Defaulted(config, fetchDiscovery).error)
    ensures var d := Defaulted(config, fetchDiscovery);
      d.Ok? && fetchJwks(d.value.jwksUri, d.value.jwksFetchTimeout).None? ==>
        r == Err(KeyHandlerInitFailed(FetchFailed(d.value.jwksUri)))
    ensures var d := Defaulted(config, fetchDiscovery);
      d.Ok? && fetchJwks(d.value.jwksUri, d.value.jwksFetchTimeout).Some? &&
      CompileEntries(Split(d.value.tokenLookup, ','), d.value.authScheme).Err? ==>
        r == Err(CompileEntries(Split(d.value.tokenLookup, ','), d.value.authScheme).error)
    ensures var d := Defaulted(config, fetchDiscovery);
      r.Ok? <==>
        (d.Ok? && fetchJwks(d.value.jwksUri, d.value.jwksFetchTimeout).Some? &&
         CompileEntries(Split(d.value.tokenLookup, ','), d.value.authScheme).Ok?)
    ensures r.Ok? ==> Ok(r.value.config) == Defaulted(config, fetchDiscovery)
    ensures r.Ok? ==>
      fresh(r.value) && fresh(r.value.keyHandler) && r.value.Valid() &&
      r.value.config.issuer == config.issuer &&
      fetchJwks(r.value.config.jwksUri, r.value.config.jwksFetchTimeout) == Some(r.value.keyHandler.keySet) &&
      Ok(r.value.extractors) == CompileEntries(Split(r.value.config.tokenLookup, ','), r.value.config.authScheme)
    ensures r.Ok? ==>
      (config.jwksUri != "" ==> r.value.config.jwksUri == config.jwksUri) &&
      (config.tokenLookup != "" ==> r.value.config.tokenLookup == config.tokenLookup) &&
      (config.authScheme != "" ==> r.value.config.authScheme == config.authScheme)
    ensures (IsDefaulted(config) && fetchJwks(config.jwksUri, config.jwksFetchTimeout).Some? &&
             CompileEntries(Split(config.tokenLookup, ','), config.authScheme).Ok?) ==>
      r.Ok? && r.value.config == config
  {
    var defaulted := ApplyDefaults(config, fetchDiscovery);
    if defaulted.Err? {
      return Err(defaulted.error);
    }
    var c := defaulted.value;
    var keyHandler := NewKeyHandler(c.jwksUri, c.jwksFetchTimeout, fetchJwks);
    if keyHandler.Err? {
      return Err(KeyHandlerInitFailed(keyHandler.error));
    }
    var extractors := CompileTokenLookup(c.tokenLookup, c.authScheme);
    if extractors.Err? {
      return Err(extractors.error);
    }
    var m := new Middleware(c, extractors.value, keyHandler.value);
    return Ok(m);
  }

  /** OIDC(key): ignores its argument and builds from DefaultOIDCConfig,
      whose issuer is empty, so it always fails. */
  method OidcFromKey<K>(key: K, fetchDiscovery: DiscoveryFetch, fetchJwks: JwksFetch) returns (r: Result<Middleware, ConfigError>)
    ensures r == Err(MissingIssuer)
  {
    r := OidcWithConfig(DefaultConfig, fetchDiscovery, fetchJwks);
  }
}
